=== FILE: README.md ===
# Batch aggregator: a Dafny model

This project models the batching engine of the video-transcoding platform's
`batch-aggregator` service (`BatchAggregator` in
`batch-aggregator/batch-aggregator.py`). The service consumes
video-compression requests from a broker queue. It accumulates them in
`current_batch` together with their delivery tags. When the pending count
reaches `BATCH_SIZE`, or when the timeout loop sees that more than
`BATCH_TIMEOUT_SECONDS` have passed since the last reset, it flushes. A flush
writes the batch record to the cache and the object store on a best-effort
basis, publishes a batch-ready notice, acks every pending delivery and resets.

The model is a pure transition system over an immutable state record:

- `State`: the pending `(message, tag)` items, `lastBatchTime` and the three
  metrics.
- `Config`: the configured values, plus which collaborators are present (broker
  channel, bucket handle, cache client, metrics library).
- Each operation returns a `Step`: the next state plus an effect log.
  `MissingVideo` warnings, `SinkWrite`s, `Publish`, `Ack` and `Nack` entries
  appear in the log in the order the code performs them.

Modules:

- `Strings`: the Python string operations used, including `replace(old, '')`.
- `Json`: the decoded body, Python truthiness, `dict.get`, `or`, and the `in`
  operator.
- `Storage`: the video filter of `list_gcs_videos`, `gs://` URIs and blob-name
  extraction.
- `Aggregator`: `on_message`, `flush_batch` and one iteration of
  `batch_timeout_checker`.
- `Trace`: runs of deliveries and timer iterations, each applied atomically,
  and the properties that hold for every run.
- `Scenarios`: concrete runs.
- `Scheduling`: the schedule `start` actually produces, in which the timeout
  loop never gets a turn.

The clock is an integer count of milliseconds passed into each operation. The
timeout test `time.time() - last_batch_time > batch_timeout` becomes
`now - lastBatchTime > batchTimeout * 1000`, which is the same comparison. The
batch id `batch_<ms>` is kept as the millisecond reading itself. Two flushes in
the same millisecond therefore announce the same id, as they do in the code.

Points where the code behaves differently from what a reader might expect:

- The code takes no lock. It resets `current_batch` and `last_batch_time`
  last, after the sinks, the notice and the acks (lines 291-292).
- Besides undecodable bodies, the code also nacks well-formed JSON in these
  cases:
  - numbers, booleans and `null`, on which the `in` test raises;
  - lists or strings that mention `gcs_uri`/`video_path`, since they have no
    `.get`;
  - objects whose chosen path is truthy but not a string;
  - deliveries whose existence probe raised.

  `Aggregator.Inspect` states per JSON kind which bodies raise, and for
  objects exactly when a probe is made. `Aggregator.Screen` states that the
  verdict is a nack exactly for those bodies, or when the probe raised.
- Without a broker channel, a flush publishes nothing and acks nothing, but it
  still resets the pending list (lines 272-292).
- The timeout flush happens on the first loop iteration strictly after the
  timeout has elapsed. A reading of exactly the timeout does not flush.
- The timeout loop never runs while messages are consumed (see Findings).

## Model

| member | source | states |
|---|---|---|
| `Storage.ListVideos` | batch-aggregator/batch-aggregator.py:145-171 | no bucket handle, or a listing call that raised, gives `[]`; otherwise every entry has a video name and the URI `gs://{bucket}/{name}`, and there are no more entries than listed blobs |
| `Storage.Select` | batch-aggregator/batch-aggregator.py:152-164 | the filter loop returns only video-named blobs, each with its `gs://` URI, never more entries than blobs |
| `Storage.SelectMembers` | batch-aggregator/batch-aggregator.py:156-164 | an entry is in the result iff some listed blob has a video extension and yields exactly that entry (name, size, URI) |
| `Storage.SelectAppend` | batch-aggregator/batch-aggregator.py:155-158 | listing order is kept: filtering consecutive parts of a listing concatenates their results |
| `Storage.SelectOne` | batch-aggregator/batch-aggregator.py:157-164 | a single blob is kept, as `Video(name, size, "gs://" + bucket + "/" + name)`, iff its name has a video extension, and dropped otherwise |
| `Storage.VideoNameIgnoresCase` | batch-aggregator/batch-aggregator.py:152-157 | the extension test gives the same answer for a name and its lower- or upper-cased form |
| `Storage.GcsUri` | batch-aggregator/batch-aggregator.py:163 | the URI of a listed blob starts with `gs://{bucket}/` and the rest of it is the blob name |
| `Storage.ExtractInvertsUri` | batch-aggregator/batch-aggregator.py:212-214 | the blob-name extraction recovers `name` from `gs://{bucket}/{name}` whenever `name` does not itself contain that prefix |
| `Storage.ExtractDropsEmbeddedPrefix` | batch-aggregator/batch-aggregator.py:214 | the proviso is needed: `replace` also deletes a prefix inside the name, so `x/gs://b/y` in bucket `b` is looked up as `x/y` |
| `Storage.ExtractBlobName` | batch-aggregator/batch-aggregator.py:214 | a path that does not contain `gs://{bucket}/` anywhere is looked up unchanged; a path that does contain it loses at least that many characters |
| `Storage.ExtractStripsLeadingPrefix` | batch-aggregator/batch-aggregator.py:214 | a path that starts with `gs://{bucket}/` and contains it nowhere after that start loses exactly the prefix |
| `Storage.ExtractKeepsForeignBucket` | batch-aggregator/batch-aggregator.py:214 | example: `gs://c/v.mp4` in bucket `b` is looked up unchanged, since it does not contain `gs://b/` (a path of another bucket that does contain it is rewritten) |
| `Storage.Entry` | batch-aggregator/batch-aggregator.py:158-164 | the entry built for a kept blob carries its name, its size and the URI `gs://{bucket}/{name}` |
| `Storage.IsVideoName` | batch-aggregator/batch-aggregator.py:152-157 | a video name is at least four characters long (the shortest extension) |
| `Storage.VideoNameExamples` | batch-aggregator/batch-aggregator.py:152-157 | the extension test ignores case (`clip.MP4` is a video) and the extension must end the name (`clip.mp4.txt` is not) |
| `Strings.Remove` | batch-aggregator/batch-aggregator.py:214 | `replace(pat, '')` leaves a string without `pat` unchanged, and removes at least one occurrence's length from a string with it |
| `Strings.RemoveLeading` | batch-aggregator/batch-aggregator.py:214 | removing `pat` from `pat + rest` gives back `rest` exactly when `rest` does not contain `pat` |
| `Json.Or` | batch-aggregator/batch-aggregator.py:211 | `gcs_uri or video_path` is truthy iff one of them is; it is `gcs_uri` whenever that is truthy and `video_path` otherwise |
| `Json.Truthy` | batch-aggregator/batch-aggregator.py:211-212 | Python truthiness of a decoded value: `None`, `False`, zero, and empty strings, lists and objects are false; everything else is true |
| `Json.Get` | batch-aggregator/batch-aggregator.py:211 | `message.get(key)` is the stored value when the key is present and `None` when it is absent |
| `Json.In` | batch-aggregator/batch-aggregator.py:210 | the `in` test raises exactly on numbers, booleans and `null` |
| `Aggregator.Inspect` | batch-aggregator/batch-aggregator.py:209-218 | which bodies raise during inspection, per JSON kind; an object without either key needs no check; an object is probed iff its chosen path is a truthy string starting with `gs://` and a bucket handle exists, and then the probed blob is the extraction of that path |
| `Aggregator.Screen` | batch-aggregator/batch-aggregator.py:206-219 | an undecodable body is rejected; a message is accepted iff it decodes and its inspection does not raise, unless the existence probe raised, in which case it is rejected; a message needing no probe is accepted as is; the only warning is the missing-video one, given exactly when the probe said absent |
| `Aggregator.Admit` | batch-aggregator/batch-aggregator.py:220-229 | below the threshold, the item becomes the last pending entry with nothing sent. When the post-append count reaches the batch size, pending is emptied, the clock is reset to `now`, and every earlier pending tag plus the new one is acked in order with a channel. That step is exactly `flush_batch` of the appended state with the gauge updated, so it writes the configured sinks and announces the batch once, with a channel, before any ack; the log keeps protocol order; never a nack |
| `Aggregator.AdmitGauges` | batch-aggregator/batch-aggregator.py:225-226 | below the threshold, admission sets the queue-depth gauge to the new pending count (with metrics on) and leaves the batch counter and the size histogram alone |
| `Aggregator.Gauged` | batch-aggregator/batch-aggregator.py:225-226 | `queue_depth.set(n)`: with metrics on the gauge reads `n`; the batch counter and the size histogram never move; with metrics off nothing changes |
| `Aggregator.OnMessage` | batch-aggregator/batch-aggregator.py:204-233 | a rejected delivery is nacked once and leaves the state unchanged; an accepted one is appended last with its tag, and when that reaches the batch size the batch including it is flushed and acked, with the state reset at `now`. An accepted delivery announces a batch (id `now`) iff a channel exists and it fills the batch. Every log is in protocol order: warning, sink writes, notice, acks. Pending stays below a positive batch size |
| `Aggregator.OnMessageWritesBatch` | batch-aggregator/batch-aggregator.py:220-229 | for an accepted delivery that fills the batch, the batch of every earlier pending message plus this one is written to the cache iff a cache client exists and to the object store iff a bucket handle exists; below the threshold the metrics are those of the gauge update alone |
| `Aggregator.ProbeOnlyWarns` | batch-aggregator/batch-aggregator.py:215-223 | whether the probed blob exists changes only the warning: same next state, same effects after it |
| `Aggregator.ListedVideoIsProbed` | batch-aggregator/batch-aggregator.py:210-216 | a message carrying a URI built by the listing is probed under that blob's own name |
| `Aggregator.Init` | batch-aggregator/batch-aggregator.py:54-55 | the engine starts with nothing pending, the clock reading of construction as the last reset, and zero metrics |
| `Aggregator.Notify` | batch-aggregator/batch-aggregator.py:272-282 | with a channel, one batch-ready notice naming the batch id and bucket, then one ack per pending item in order; without one, nothing |
| `Aggregator.MakeBatch` | batch-aggregator/batch-aggregator.py:240-246 | the batch's videos are the pending messages in arrival order; id and timestamp are the flush time; the bucket is the configured one |
| `Aggregator.SinkWrites` | batch-aggregator/batch-aggregator.py:248-269 | the batch is written to the cache iff a cache client exists and to the object store iff a bucket handle exists, and nothing else is written |
| `Aggregator.Flush` | batch-aggregator/batch-aggregator.py:235-295 | with nothing pending nothing happens (no effect, no metric, no clock reset). Otherwise: pending emptied, `lastBatchTime = now`, one notice, and every pending tag acked once in arrival order, only with a channel; no nacks; metrics count one batch of the pending size and zero the gauge. The batch is written to the cache iff a cache client exists and to the object store iff a bucket handle exists |
| `Aggregator.FlushOrder` | batch-aggregator/batch-aggregator.py:248-282 | sink writes come before the batch-ready notice, and the notice before every ack |
| `Aggregator.FlushBatchContents` | batch-aggregator/batch-aggregator.py:240-269 | every batch written to a sink holds exactly the pending messages in order, with the flush time as id |
| `Aggregator.AckedTagsOfAcks` | batch-aggregator/batch-aggregator.py:281-282 | acking every pending item acks exactly their tags, once each, in order |
| `Aggregator.TimedOut` | batch-aggregator/batch-aggregator.py:301 | the loop flushes only when something is pending and strictly more than the timeout has elapsed since the last reset |
| `Aggregator.TimedOutStrict` | batch-aggregator/batch-aggregator.py:301 | with something pending, a reading of exactly the deadline does not flush, one a millisecond later does, and a reading after one that flushes flushes too |
| `Aggregator.Tick` | batch-aggregator/batch-aggregator.py:299-302 | a timeout iteration changes nothing iff nothing is pending or the elapsed time does not strictly exceed the timeout; otherwise it is exactly `flush_batch`, emptying pending and acking it, with the log in protocol order (sink writes, notice, acks) |
| `Aggregator.NoDoubleFlush` | batch-aggregator/batch-aggregator.py:237-238 | after a flush, another flush or a timeout iteration at any time does nothing |
| `Trace.Apply` | batch-aggregator/batch-aggregator.py:204-233 | one event, applied atomically: a delivery runs the `on_message` step and a timer event runs one timeout-loop iteration (lines 299-302) |
| `Trace.Run` | batch-aggregator/batch-aggregator.py:297-302 | the schedule in which timer iterations interleave with deliveries, as the timeout loop was evidently meant to run: the state threads through the events in order and the logs are concatenated |
| `Trace.ApplyAckBalance` | batch-aggregator/batch-aggregator.py:220-229 | with a broker channel, one step's acks followed by the remaining pending tags equal the previous pending tags followed by the tag it accepted |
| `Trace.DeliveryAckBalance` | batch-aggregator/batch-aggregator.py:220-233 | with a broker channel, one delivery's acks followed by the pending tags after it are the pending tags before it, plus its own tag iff it is accepted |
| `Trace.TimerAckBalance` | batch-aggregator/batch-aggregator.py:299-302 | with a broker channel, one timeout-loop iteration's acks followed by the pending tags after it are the pending tags before it |
| `Trace.RunAckBalance` | batch-aggregator/batch-aggregator.py:220-292 | with a broker channel, over any run: acked tags followed by pending tags equal the initial pending tags followed by all accepted tags. So every accepted delivery is acked exactly once in arrival order or is still pending |
| `Trace.RunNoChannelNoAcks` | batch-aggregator/batch-aggregator.py:272-282 | without a channel no run acks anything |
| `Trace.RunNacksRejected` | batch-aggregator/batch-aggregator.py:231-233 | the nacked tags of a run are exactly the rejected deliveries, in order |
| `Trace.RunBelowBatchSize` | batch-aggregator/batch-aggregator.py:228-229 | with a positive batch size, every run that starts below it ends below it |
| `Trace.AcceptedRejectedDisjoint` | batch-aggregator/batch-aggregator.py:220-233 | with distinct delivery tags, no tag is both appended and nacked |
| `Trace.NackedNeverAcked` | batch-aggregator/batch-aggregator.py:220-233 | with distinct delivery tags, a nacked delivery is never acked by any later flush |
| `Scenarios.CountTriggerScenario` | batch-aggregator/batch-aggregator.py:220-292 | batch size 3, any three bodies that need no existence check: two deliveries stay pending; the third flushes a batch of all three, cached, announced and acked in order, then resets |
| `Scenarios.TimeoutScenario` | batch-aggregator/batch-aggregator.py:299-302 | timeout 2 s, any body that needs no existence check: one pending delivery is not flushed at 1 s or exactly 2 s, and is flushed and acked at 3 s |
| `Scheduling.AsWritten` | batch-aggregator/batch-aggregator.py:178-193 | as `start` schedules them, exactly the deliveries take effect, in order, and no timer iteration does |
| `Scheduling.TimersStarved` | batch-aggregator/batch-aggregator.py:178-193 | as written, any number of timer iterations leave the state unchanged and send nothing |
| `Scheduling.StarvedTimeoutWitness` | batch-aggregator/batch-aggregator.py:178-193 | batch size 50, timeout 2 s: a lone delivery is never flushed as written, but is announced and acked at 3 s when the loop runs |
| `Scheduling.TimerFlushesTimedOut` | batch-aggregator/batch-aggregator.py:297-302 | when the loop runs, one iteration after the timeout empties the batch, resets the clock and acks every pending tag in order |
| `Scenarios.RequeueScenario` | batch-aggregator/batch-aggregator.py:206-233 | an undecodable body and a JSON number are both nacked and leave the state untouched |

## Left out

- Connection bootstrap with its retries, sleeps and `sys.exit` (lines 66-143): process start-up plumbing. The model only records which collaborators came up, as `Config` flags.
- `start()`: metrics server, consumer setup and prefetch (lines 173-190). These are process set-up. Its scheduling effect, that the timeout task never runs while consuming, is modelled by `Scheduling.AsWritten`.
- The idle loop without a channel (lines 198-202): nothing is delivered then, so the timeout loop, which does run there, never finds anything pending.
- The one-second sleep of the timeout loop: each loop iteration is a `Timer` event with its own clock reading; the spacing of those readings is not constrained.
- Broker, object-store, cache and metrics calls are foreign I/O and appear as effect-log entries. Cache and object-store write failures are only logged by the code and change no state, so the model records just the attempt.
- Aggregator.Flush: `basic_publish` is assumed to succeed. If it raised, the code would keep `current_batch` intact, because the reset comes last. On the admission path, the handler at lines 231-233 would then also nack the triggering message although it is still pending. `basic_ack` (line 282) is assumed to succeed too. If it raised partway through the loop, the earlier tags would be acked while `current_batch` stays unchanged, so they would be acked again by the next flush. Neither failure path is modelled.
- JSON decoding itself: the decoded body arrives as an `Option<Json>`, and numbers are reals. `NaN` and the infinities, which Python's decoder also accepts, are not represented.
- Lowercasing covers ASCII letters only. The six extensions are ASCII, but a name with non-ASCII letters that Python lowercases differently is not modelled.
- `list_gcs_videos`: the `prefix` argument is handled by the store's listing call. The `created`/`updated` timestamps and their ISO formatting are not modelled. The blob `size` is passed through unchanged.
- The wall clock is floating-point seconds in the code and an integer number of milliseconds here. The three separate clock readings of one flush (lines 240, 244, 292) are one reading here. The id string `batch_<ms>` is represented by its number.
- Logging other than the missing-video warning: log lines have no effect on behaviour.

## Findings

| source | as written | input that shows it | evidently intended | confidence | as-written member | corrected member |
|---|---|---|---|---|---|---|
| batch-aggregator/batch-aggregator.py:178-193 | `start` creates the timeout task, then calls the blocking `start_consuming` without awaiting, so the event loop never runs the timeout task while messages are consumed | batch size 50, timeout 2 s, one delivery at t = 0 and no more: it stays pending and unacked indefinitely | the timeout loop runs between deliveries and flushes a batch that has waited longer than the timeout | not executed | `Scheduling.StarvedTimeoutWitness` (with `Scheduling.AsWritten`, `Scheduling.TimersStarved`) | `Trace.Run` with `Scheduling.TimerFlushesTimedOut` and `Scenarios.TimeoutScenario` |

=== FILE: aggregator.dfy ===
/** The batching engine of `BatchAggregator`: admission of one delivery
    (`on_message`), the flush protocol (`flush_batch`) and one iteration of
    the timeout loop (`batch_timeout_checker`). Each operation is a pure
    transition from a state to the next state plus the log of broker, sink
    and logging effects it performs, in the order it performs them. */
module Aggregator {
  import opened Options
  import opened Strings
  import opened Json
  import opened Storage

  /** A broker delivery tag. */
  type Tag = nat

  /** The clock counts milliseconds; the configured timeout is in seconds. */
  const MillisPerSecond: int := 1000

  const DefaultBatchSize: int := 50
  const DefaultBatchTimeout: int := 2
  const DefaultBucket: string := "vid-transcode"

  /** Configuration read at start-up, and which collaborators came up:
      the broker channel, the bucket handle, the cache client and the
      metrics library. */
  datatype Config = Config(
    batchSize: int,
    batchTimeout: int,
    bucketName: string,
    hasChannel: bool,
    hasBucket: bool,
    hasCache: bool,
    metricsOn: bool)

  /** One admitted delivery: the decoded body and its delivery tag. */
  datatype Item = Item(message: Json, tag: Tag)

  /** The three exported metrics: batches created, the observed batch sizes,
      and the queue-depth gauge. */
  datatype Metrics = Metrics(batchesCreated: nat, batchSizes: seq<nat>, queueDepth: nat)

  /** `current_batch`, `last_batch_time` (milliseconds) and the metrics. */
  datatype State = State(pending: seq<Item>, lastBatchTime: int, metrics: Metrics)

  /** The batch record built by a flush; its id is the flush's clock reading
      in milliseconds. */
  datatype Batch = Batch(id: int, videos: seq<Json>, timestamp: int, bucket: string)

  datatype Sink = Cache | ObjectStore

  /** Everything the engine does to the outside world. `Nack` always asks
      the broker to requeue. */
  datatype Effect =
    | MissingVideo(path: string)
    | SinkWrite(sink: Sink, batch: Batch)
    | Publish(batchId: int, bucket: string)
    | Ack(tag: Tag)
    | Nack(tag: Tag)

  /** The result of one transition. */
  datatype Step = Step(next: State, effects: seq<Effect>)

  /** What the object store answers when asked whether a blob exists;
      `ProbeFailed` is a call that raised. */
  datatype Probe = Present | Absent | ProbeFailed

  /** What the inspection of a decoded body decides: no existence check,
      a check of `blob` for the message's `path`, or an exception. */
  datatype Check = NoCheck | CheckBlob(path: string, blob: string) | Malformed

  /** Whether a delivery is appended (with the warnings logged on the way)
      or nacked. */
  datatype Verdict = Reject | Accept(message: Json, warnings: seq<Effect>)

  /** The state at start-up. */
  function Init(now: int): (s: State)
    ensures s.pending == [] && s.lastBatchTime == now
    ensures s.metrics == Metrics(0, [], 0)
  {
    State([], now, Metrics(0, [], 0))
  }

  /** The delivery tags of `items`, in order. */
  function Tags(items: seq<Item>): (r: seq<Tag>)
    ensures |r| == |items|
    ensures forall i :: 0 <= i < |items| ==> r[i] == items[i].tag
  {
    if |items| == 0 then [] else [items[0].tag] + Tags(items[1..])
  }

  /** The message bodies of `items`, in order. */
  function Messages(items: seq<Item>): (r: seq<Json>)
    ensures |r| == |items|
    ensures forall i :: 0 <= i < |items| ==> r[i] == items[i].message
  {
    if |items| == 0 then [] else [items[0].message] + Messages(items[1..])
  }

  /** One ack per item, in order. */
  function Acks(items: seq<Item>): (r: seq<Effect>)
    ensures |r| == |items|
    ensures forall i :: 0 <= i < |items| ==> r[i] == Ack(items[i].tag)
  {
    if |items| == 0 then [] else [Ack(items[0].tag)] + Acks(items[1..])
  }

  /** The tags acked in `log`, in log order. */
  function AckedTags(log: seq<Effect>): (r: seq<Tag>)
  {
    if |log| == 0 then []
    else (if log[0].Ack? then [log[0].tag] else []) + AckedTags(log[1..])
  }

  /** The tags nacked in `log`, in log order. */
  function NackedTags(log: seq<Effect>): (r: seq<Tag>)
  {
    if |log| == 0 then []
    else (if log[0].Nack? then [log[0].tag] else []) + NackedTags(log[1..])
  }

  /** The batch ids announced in `log`, in log order. */
  function Published(log: seq<Effect>): (r: seq<int>)
  {
    if |log| == 0 then []
    else (if log[0].Publish? then [log[0].batchId] else []) + Published(log[1..])
  }

  /** The position of an effect in the flush protocol: sink writes, then the
      batch-ready notice, then the acks. */
  function Phase(e: Effect): nat {
    match e
    case MissingVideo(_) => 0
    case SinkWrite(_, _) => 1
    case Publish(_, _) => 2
    case Ack(_) => 3
    case Nack(_) => 4
  }

  lemma {:induction false} AckedTagsAppend(a: seq<Effect>, b: seq<Effect>)
    ensures AckedTags(a + b) == AckedTags(a) + AckedTags(b)
    decreases |a|
  {
    if |a| > 0 {
      assert (a + b)[1..] == a[1..] + b;
      AckedTagsAppend(a[1..], b);
    } else {
      assert a + b == b;
    }
  }

  lemma {:induction false} NackedTagsAppend(a: seq<Effect>, b: seq<Effect>)
    ensures NackedTags(a + b) == NackedTags(a) + NackedTags(b)
    decreases |a|
  {
    if |a| > 0 {
      assert (a + b)[1..] == a[1..] + b;
      NackedTagsAppend(a[1..], b);
    } else {
      assert a + b == b;
    }
  }

  lemma {:induction false} PublishedAppend(a: seq<Effect>, b: seq<Effect>)
    ensures Published(a + b) == Published(a) + Published(b)
    decreases |a|
  {
    if |a| > 0 {
      assert (a + b)[1..] == a[1..] + b;
      PublishedAppend(a[1..], b);
    } else {
      assert a + b == b;
    }
  }

  /** Acking every item acks exactly their tags, once each, in item order. */
  lemma {:induction false} AckedTagsOfAcks(items: seq<Item>)
    ensures AckedTags(Acks(items)) == Tags(items)
    decreases |items|
  {
    if |items| > 0 {
      var r := Acks(items);
      assert r == [Ack(items[0].tag)] + Acks(items[1..]);
      AckedTagsAppend([Ack(items[0].tag)], Acks(items[1..]));
      AckedTagsOfAcks(items[1..]);
      assert Tags(items) == [items[0].tag] + Tags(items[1..]);
    }
  }

  lemma {:induction false} NoneNackedInAcks(items: seq<Item>)
    ensures NackedTags(Acks(items)) == [] && Published(Acks(items)) == []
    decreases |items|
  {
    if |items| > 0 {
      assert Acks(items) == [Ack(items[0].tag)] + Acks(items[1..]);
      NackedTagsAppend([Ack(items[0].tag)], Acks(items[1..]));
      PublishedAppend([Ack(items[0].tag)], Acks(items[1..]));
      NoneNackedInAcks(items[1..]);
    }
  }

  /** The batch record of a flush: the pending messages in arrival order,
      stamped with the flush time and the bucket name. */
  function MakeBatch(cfg: Config, items: seq<Item>, now: int): (b: Batch)
    ensures |b.videos| == |items|
    ensures forall i :: 0 <= i < |items| ==> b.videos[i] == items[i].message
    ensures b.id == now && b.timestamp == now && b.bucket == cfg.bucketName
  {
    Batch(now, Messages(items), now, cfg.bucketName)
  }

  /** The best-effort writes of a batch: the cache when a client exists,
      then the object store when a bucket handle exists. Their failures are
      only logged, so the model records the attempt. */
  function SinkWrites(cfg: Config, b: Batch): (r: seq<Effect>)
    ensures forall e :: e in r ==> e.SinkWrite? && e.batch == b
    ensures SinkWrite(Cache, b) in r <==> cfg.hasCache
    ensures SinkWrite(ObjectStore, b) in r <==> cfg.hasBucket
  {
    (if cfg.hasCache then [SinkWrite(Cache, b)] else [])
      + (if cfg.hasBucket then [SinkWrite(ObjectStore, b)] else [])
  }

  /** What a non-empty flush sends to the broker: the batch-ready notice,
      then one ack per pending delivery. Nothing without a channel. */
  function Notify(cfg: Config, batch: Batch, items: seq<Item>): (r: seq<Effect>)
    ensures !cfg.hasChannel ==> r == []
    ensures cfg.hasChannel ==> |r| == |items| + 1 && r[0] == Publish(batch.id, cfg.bucketName)
    ensures cfg.hasChannel ==> forall i :: 0 <= i < |items| ==> r[i + 1] == Ack(items[i].tag)
  {
    if cfg.hasChannel then [Publish(batch.id, cfg.bucketName)] + Acks(items) else []
  }

  /** `flush_batch`. Empty pending: nothing happens at all. Otherwise the
      batch is written to the sinks, announced when a channel exists, every
      pending delivery is then acked in arrival order, the metrics move, and
      the state is reset with the flush time. Publishing and acking are
      assumed to succeed. */
  function Flush(cfg: Config, s: State, now: int): (r: Step)
    ensures |s.pending| == 0 ==> r == Step(s, [])
    ensures |s.pending| > 0 ==> r.next.pending == [] && r.next.lastBatchTime == now
    ensures AckedTags(r.effects) == (if cfg.hasChannel then Tags(s.pending) else [])
    ensures NackedTags(r.effects) == []
    ensures Published(r.effects) == (if cfg.hasChannel && |s.pending| > 0 then [now] else [])
    ensures |s.pending| > 0 && cfg.metricsOn ==>
      r.next.metrics == Metrics(s.metrics.batchesCreated + 1, s.metrics.batchSizes + [|s.pending|], 0)
    ensures !cfg.metricsOn ==> r.next.metrics == s.metrics
    ensures |s.pending| > 0 ==>
      && (SinkWrite(Cache, MakeBatch(cfg, s.pending, now)) in r.effects <==> cfg.hasCache)
      && (SinkWrite(ObjectStore, MakeBatch(cfg, s.pending, now)) in r.effects <==> cfg.hasBucket)
  {
    if |s.pending| == 0 then Step(s, [])
    else
      var batch := MakeBatch(cfg, s.pending, now);
      var metrics :=
        if cfg.metricsOn then Metrics(s.metrics.batchesCreated + 1, s.metrics.batchSizes + [|s.pending|], 0)
        else s.metrics;
      FlushLogTags(cfg, batch, s.pending);
      FlushLogSinks(cfg, batch, s.pending);
      Step(State([], now, metrics), SinkWrites(cfg, batch) + Notify(cfg, batch, s.pending))
  }

  /** The sink writes carry no broker traffic. */
  lemma SinkWritesQuiet(cfg: Config, batch: Batch)
    ensures var sinks := SinkWrites(cfg, batch);
      AckedTags(sinks) == [] && NackedTags(sinks) == [] && Published(sinks) == []
  {
    var a: seq<Effect> := if cfg.hasCache then [SinkWrite(Cache, batch)] else [];
    var b: seq<Effect> := if cfg.hasBucket then [SinkWrite(ObjectStore, batch)] else [];
    AckedTagsAppend(a, b);
    NackedTagsAppend(a, b);
    PublishedAppend(a, b);
  }

  /** The sink writes in the log of a non-empty flush are those of the
      configured sinks. */
  lemma FlushLogSinks(cfg: Config, batch: Batch, items: seq<Item>)
    ensures var log := SinkWrites(cfg, batch) + Notify(cfg, batch, items);
      && (SinkWrite(Cache, batch) in log <==> cfg.hasCache)
      && (SinkWrite(ObjectStore, batch) in log <==> cfg.hasBucket)
  {
    NotifyOrdered(cfg, batch, items);
    assert Phase(SinkWrite(Cache, batch)) == 1 && Phase(SinkWrite(ObjectStore, batch)) == 1;
  }

  /** The acks, nacks and notices in the log of a non-empty flush. */
  lemma FlushLogTags(cfg: Config, batch: Batch, items: seq<Item>)
    ensures var log := SinkWrites(cfg, batch) + Notify(cfg, batch, items);
      && AckedTags(log) == (if cfg.hasChannel then Tags(items) else [])
      && NackedTags(log) == []
      && Published(log) == (if cfg.hasChannel then [batch.id] else [])
  {
    var sinks := SinkWrites(cfg, batch);
    var notify := Notify(cfg, batch, items);
    SinkWritesQuiet(cfg, batch);
    AckedTagsAppend(sinks, notify);
    NackedTagsAppend(sinks, notify);
    PublishedAppend(sinks, notify);
    if cfg.hasChannel {
      var pub: seq<Effect> := [Publish(batch.id, cfg.bucketName)];
      AckedTagsOfAcks(items);
      NoneNackedInAcks(items);
      AckedTagsAppend(pub, Acks(items));
      NackedTagsAppend(pub, Acks(items));
      PublishedAppend(pub, Acks(items));
    }
  }

  /** `log` follows the flush protocol's phases. */
  predicate InProtocolOrder(log: seq<Effect>) {
    forall i, j :: 0 <= i < j < |log| ==> Phase(log[i]) <= Phase(log[j])
  }

  lemma OrderedAppend(a: seq<Effect>, b: seq<Effect>, p: nat)
    requires InProtocolOrder(a) && InProtocolOrder(b)
    requires forall x :: x in a ==> Phase(x) <= p
    requires forall y :: y in b ==> p <= Phase(y)
    ensures InProtocolOrder(a + b)
  {
    var log := a + b;
    forall i, j | 0 <= i < j < |log|
      ensures Phase(log[i]) <= Phase(log[j])
    {
      if j < |a| {
        assert log[i] == a[i] && log[j] == a[j];
      } else if i < |a| {
        assert log[i] in a && log[j] in b;
      } else {
        assert log[i] == b[i - |a|] && log[j] == b[j - |a|];
      }
    }
  }

  lemma SinkWritesOrdered(cfg: Config, batch: Batch)
    ensures InProtocolOrder(SinkWrites(cfg, batch))
    ensures forall x :: x in SinkWrites(cfg, batch) ==> Phase(x) == 1
  {
    var sinks := SinkWrites(cfg, batch);
    forall i, j | 0 <= i < j < |sinks|
      ensures Phase(sinks[i]) <= Phase(sinks[j])
    {
      assert sinks[i] in sinks && sinks[j] in sinks;
    }
  }

  lemma NotifyOrdered(cfg: Config, batch: Batch, items: seq<Item>)
    ensures InProtocolOrder(Notify(cfg, batch, items))
    ensures forall y :: y in Notify(cfg, batch, items) ==> 2 <= Phase(y)
  {
    if cfg.hasChannel {
      var acks := Acks(items);
      var pub: seq<Effect> := [Publish(batch.id, cfg.bucketName)];
      assert forall y :: y in acks ==> Phase(y) == 3;
      assert InProtocolOrder(acks) by {
        forall i, j | 0 <= i < j < |acks|
          ensures Phase(acks[i]) <= Phase(acks[j])
        {
          assert acks[i] in acks && acks[j] in acks;
        }
      }
      OrderedAppend(pub, acks, 2);
    }
  }

  /** The flush protocol's order: every sink write comes before the
      batch-ready notice, and the notice before every ack. */
  lemma FlushOrder(cfg: Config, s: State, now: int)
    ensures InProtocolOrder(Flush(cfg, s, now).effects)
  {
    if |s.pending| > 0 {
      var batch := MakeBatch(cfg, s.pending, now);
      SinkWritesOrdered(cfg, batch);
      NotifyOrdered(cfg, batch, s.pending);
      OrderedAppend(SinkWrites(cfg, batch), Notify(cfg, batch, s.pending), 1);
    }
  }

  /** Every batch written to a sink holds the pending messages in arrival
      order, under the flush time as id and the configured bucket. */
  lemma FlushBatchContents(cfg: Config, s: State, now: int, e: Effect)
    requires e in Flush(cfg, s, now).effects && e.SinkWrite?
    ensures e.batch.id == now && e.batch.bucket == cfg.bucketName
    ensures |e.batch.videos| == |s.pending|
    ensures forall k :: 0 <= k < |s.pending| ==> e.batch.videos[k] == s.pending[k].message
  {
    var batch := MakeBatch(cfg, s.pending, now);
    var sinks := SinkWrites(cfg, batch);
    var notify := Notify(cfg, batch, s.pending);
    if |s.pending| == 0 {
      assert false;
    }
    assert Flush(cfg, s, now).effects == sinks + notify;
    NotifyOrdered(cfg, batch, s.pending);
    assert Phase(e) == 1;
    assert e in sinks;
  }

  /** Lines 209-218 of `on_message`: look for a `gcs_uri` or `video_path`
      field and decide whether the named blob is checked. Python raises
      (and the delivery is nacked) when `in` meets a number, a boolean or
      `None`, when `.get` meets a list or a string that mention one of the
      two keys, and when the chosen path is truthy but not a string. */
  function Inspect(cfg: Config, m: Json): (c: Check)
    ensures c.CheckBlob? ==>
      && m.JObject? && cfg.hasBucket
      && StartsWith(c.path, "gs://")
      && c.blob == ExtractBlobName(cfg.bucketName, c.path)
    ensures m.JNull? || m.JBool? || m.JNumber? ==> c == Malformed
    ensures m.JArray? ==>
      (c == Malformed <==> JString("gcs_uri") in m.items || JString("video_path") in m.items)
    ensures m.JString? ==>
      (c == Malformed <==> Contains(m.s, "gcs_uri") || Contains(m.s, "video_path"))
    ensures m.JObject? && "gcs_uri" !in m.fields && "video_path" !in m.fields ==> c == NoCheck
    ensures m.JObject? ==>
      var path := Or(Get(m.fields, "gcs_uri"), Get(m.fields, "video_path"));
      (c == Malformed <==> Truthy(path) && !path.JString?)
    ensures m.JObject? ==>
      var path := Or(Get(m.fields, "gcs_uri"), Get(m.fields, "video_path"));
      (c.CheckBlob? <==> path.JString? && Truthy(path) && StartsWith(path.s, "gs://") && cfg.hasBucket)
      && (c.CheckBlob? ==> c.path == path.s)
  {
    var named := In("gcs_uri", m);
    if named.None? then Malformed
    else if !(named.value || In("video_path", m).value) then NoCheck
    else if !m.JObject? then Malformed
    else
      var path := Or(Get(m.fields, "gcs_uri"), Get(m.fields, "video_path"));
      if !Truthy(path) then NoCheck
      else if !path.JString? then Malformed
      else if !StartsWith(path.s, "gs://") || !cfg.hasBucket then NoCheck
      else CheckBlob(path.s, ExtractBlobName(cfg.bucketName, path.s))
  }

  /** The part of `on_message` before the append: a body that did not
      decode, or whose inspection raised, or whose existence probe raised,
      is rejected; otherwise the decoded message is accepted, with a warning
      when the probe says the blob is missing. */
  function Screen(cfg: Config, body: Option<Json>, probe: Probe): (v: Verdict)
    ensures body.None? ==> v == Reject
    ensures v.Accept? ==> body == Some(v.message) && !Inspect(cfg, body.value).Malformed?
    ensures probe != ProbeFailed ==>
      (v.Accept? <==> body.Some? && !Inspect(cfg, body.value).Malformed?)
    ensures v.Accept? ==> forall e :: e in v.warnings ==> e.MissingVideo?
    ensures v.Accept? && probe == Absent && Inspect(cfg, body.value).CheckBlob? ==>
      v.warnings == [MissingVideo(Inspect(cfg, body.value).path)]
    ensures body.Some? && Inspect(cfg, body.value).CheckBlob? && probe == ProbeFailed ==> v == Reject
    ensures body.Some? && Inspect(cfg, body.value).NoCheck? ==> v == Accept(body.value, [])
    ensures v.Accept? && (probe == Present || !Inspect(cfg, body.value).CheckBlob?) ==> v.warnings == []
  {
    match body
    case None => Reject
    case Some(m) =>
      match Inspect(cfg, m)
      case Malformed => Reject
      case NoCheck => Accept(m, [])
      case CheckBlob(path, _) =>
        match probe
        case ProbeFailed => Reject
        case Absent => Accept(m, [MissingVideo(path)])
        case Present => Accept(m, [])
  }

  /** The metrics after the queue-depth gauge is set to `depth`, when
      metrics are on. */
  function Gauged(cfg: Config, m: Metrics, depth: nat): (r: Metrics)
    ensures cfg.metricsOn ==> r.queueDepth == depth
    ensures r.batchesCreated == m.batchesCreated && r.batchSizes == m.batchSizes
    ensures !cfg.metricsOn ==> r == m
  {
    if cfg.metricsOn then m.(queueDepth := depth) else m
  }

  /** Lines 220-229 of `on_message`: append the item, update the gauge, and
      flush when the pending count reaches the batch size. */
  function Admit(cfg: Config, s: State, item: Item, now: int): (r: Step)
    ensures |s.pending| + 1 < cfg.batchSize ==>
      && r.next.pending == s.pending + [item]
      && r.next.lastBatchTime == s.lastBatchTime
      && r.effects == []
    ensures |s.pending| + 1 >= cfg.batchSize ==>
      && r.next.pending == []
      && r.next.lastBatchTime == now
      && AckedTags(r.effects) == (if cfg.hasChannel then Tags(s.pending) + [item.tag] else [])
    ensures |s.pending| + 1 >= cfg.batchSize ==>
      r == Flush(cfg, State(s.pending + [item], s.lastBatchTime, Gauged(cfg, s.metrics, |s.pending| + 1)), now)
    ensures NackedTags(r.effects) == []
    ensures Published(r.effects) == (if cfg.hasChannel && |s.pending| + 1 >= cfg.batchSize then [now] else [])
    ensures InProtocolOrder(r.effects)
  {
    var pending := s.pending + [item];
    var admitted := State(pending, s.lastBatchTime, Gauged(cfg, s.metrics, |pending|));
    if |pending| >= cfg.batchSize then
      assert Tags(pending) == Tags(s.pending) + [item.tag];
      FlushOrder(cfg, admitted, now);
      Flush(cfg, admitted, now)
    else
      Step(admitted, [])
  }

  /** Below the threshold, admission sets the queue-depth gauge to the new
      pending count and leaves the other metrics alone. */
  lemma AdmitGauges(cfg: Config, s: State, item: Item, now: int)
    requires |s.pending| + 1 < cfg.batchSize
    ensures Admit(cfg, s, item, now).next.metrics == Gauged(cfg, s.metrics, |s.pending| + 1)
  {
  }

  /** `on_message`. A rejected delivery is nacked (requeued) and the state
      is untouched. An accepted one is appended with its tag; when the
      pending count then reaches the batch size, the batch is flushed before
      returning. */
  function OnMessage(cfg: Config, s: State, tag: Tag, body: Option<Json>, probe: Probe, now: int): (r: Step)
    ensures Screen(cfg, body, probe).Reject? ==> r.next == s && r.effects == [Nack(tag)]
    ensures Screen(cfg, body, probe).Accept? ==> NackedTags(r.effects) == []
    ensures Screen(cfg, body, probe).Accept? && |s.pending| + 1 < cfg.batchSize ==>
      && r.next.pending == s.pending + [Item(body.value, tag)]
      && r.next.lastBatchTime == s.lastBatchTime
      && AckedTags(r.effects) == []
    ensures Screen(cfg, body, probe).Accept? && |s.pending| + 1 >= cfg.batchSize ==>
      && r.next.pending == []
      && r.next.lastBatchTime == now
      && AckedTags(r.effects) == (if cfg.hasChannel then Tags(s.pending) + [tag] else [])
    ensures Screen(cfg, body, probe).Accept? ==>
      Published(r.effects) == (if cfg.hasChannel && |s.pending| + 1 >= cfg.batchSize then [now] else [])
    ensures InProtocolOrder(r.effects)
    ensures cfg.batchSize >= 1 && |s.pending| < cfg.batchSize ==> |r.next.pending| < cfg.batchSize
  {
    match Screen(cfg, body, probe)
    case Reject => Step(s, [Nack(tag)])
    case Accept(m, warnings) =>
      var a := Admit(cfg, s, Item(m, tag), now);
      NackedTagsAppend(warnings, a.effects);
      AckedTagsAppend(warnings, a.effects);
      WarningsFirst(warnings, a.effects);
      Step(a.next, warnings + a.effects)
  }

  /** Missing-video warnings go out before anything else, and send no
      broker traffic. */
  lemma WarningsFirst(warnings: seq<Effect>, log: seq<Effect>)
    requires forall e :: e in warnings ==> e.MissingVideo?
    requires InProtocolOrder(log)
    ensures InProtocolOrder(warnings + log)
    ensures Published(warnings + log) == Published(log)
  {
    assert InProtocolOrder(warnings) by {
      forall i, j | 0 <= i < j < |warnings|
        ensures Phase(warnings[i]) <= Phase(warnings[j])
      {
        assert warnings[i] in warnings;
      }
    }
    OrderedAppend(warnings, log, 0);
    PublishedAppend(warnings, log);
    assert Published(warnings) == [] by {
      NoneAnnounced(warnings);
    }
  }

  lemma {:induction false} NoneAnnounced(log: seq<Effect>)
    requires forall e :: e in log ==> !e.Publish?
    ensures Published(log) == []
    decreases |log|
  {
    if |log| > 0 {
      assert log[0] in log;
      NoneAnnounced(log[1..]);
    }
  }

  /** A delivery that fills the batch writes the batch of every earlier
      pending message followed by this one to each configured sink; one
      that does not fill it only moves the queue-depth gauge. */
  lemma OnMessageWritesBatch(cfg: Config, s: State, tag: Tag, body: Option<Json>, probe: Probe, now: int)
    requires Screen(cfg, body, probe).Accept?
    ensures var r := OnMessage(cfg, s, tag, body, probe, now);
      |s.pending| + 1 >= cfg.batchSize ==>
        var b := MakeBatch(cfg, s.pending + [Item(body.value, tag)], now);
        && (SinkWrite(Cache, b) in r.effects <==> cfg.hasCache)
        && (SinkWrite(ObjectStore, b) in r.effects <==> cfg.hasBucket)
    ensures var r := OnMessage(cfg, s, tag, body, probe, now);
      |s.pending| + 1 < cfg.batchSize ==> r.next.metrics == Gauged(cfg, s.metrics, |s.pending| + 1)
  {
    var v := Screen(cfg, body, probe);
    var a := Admit(cfg, s, Item(v.message, tag), now);
    if |s.pending| + 1 < cfg.batchSize {
      AdmitGauges(cfg, s, Item(v.message, tag), now);
    }
    assert OnMessage(cfg, s, tag, body, probe, now) == Step(a.next, v.warnings + a.effects);
    assert forall e :: e in v.warnings ==> !e.SinkWrite?;
  }

  /** Whether the timeout loop flushes at `now`: something is pending and
      strictly more than the timeout has elapsed since the last reset. */
  predicate TimedOut(cfg: Config, s: State, now: int) {
    |s.pending| > 0 && now - s.lastBatchTime > cfg.batchTimeout * MillisPerSecond
  }

  /** The timeout is strict and, once passed, stays passed: a reading of
      exactly the deadline does not flush, one a millisecond later does, and
      so does any reading after one that did. */
  lemma TimedOutStrict(cfg: Config, s: State, now: int, later: int)
    requires |s.pending| > 0
    ensures !TimedOut(cfg, s, s.lastBatchTime + cfg.batchTimeout * MillisPerSecond)
    ensures TimedOut(cfg, s, s.lastBatchTime + cfg.batchTimeout * MillisPerSecond + 1)
    ensures TimedOut(cfg, s, now) && now <= later ==> TimedOut(cfg, s, later)
  { }

  /** One iteration of `batch_timeout_checker`. */
  function Tick(cfg: Config, s: State, now: int): (r: Step)
    ensures r.next == s && r.effects == [] <==> !TimedOut(cfg, s, now)
    ensures TimedOut(cfg, s, now) ==>
      && r.next.pending == []
      && r.next.lastBatchTime == now
      && AckedTags(r.effects) == (if cfg.hasChannel then Tags(s.pending) else [])
    ensures TimedOut(cfg, s, now) ==> r == Flush(cfg, s, now)
    ensures NackedTags(r.effects) == []
    ensures InProtocolOrder(r.effects)
  {
    FlushOrder(cfg, s, now);
    if TimedOut(cfg, s, now) then Flush(cfg, s, now) else Step(s, [])
  }

  /** Whether the existence probe says yes or no changes nothing but the
      warning: the same message is appended with the same tag and the same
      flush follows. */
  lemma ProbeOnlyWarns(cfg: Config, s: State, tag: Tag, m: Json, now: int)
    requires Inspect(cfg, m).CheckBlob?
    ensures
      var found := OnMessage(cfg, s, tag, Some(m), Present, now);
      var missing := OnMessage(cfg, s, tag, Some(m), Absent, now);
      && found.next == missing.next
      && missing.effects == [MissingVideo(Inspect(cfg, m).path)] + found.effects
  {
    var a := Admit(cfg, s, Item(m, tag), now);
    var c := Inspect(cfg, m);
    var w := [MissingVideo(c.path)];
    assert Screen(cfg, Some(m), Present) == Accept(m, []);
    assert Screen(cfg, Some(m), Absent) == Accept(m, w);
    assert OnMessage(cfg, s, tag, Some(m), Present, now) == Step(a.next, [] + a.effects);
    assert OnMessage(cfg, s, tag, Some(m), Absent, now) == Step(a.next, w + a.effects);
    assert [] + a.effects == a.effects;
  }

  /** A flush empties the pending list, so a second flush, or a timeout tick
      racing with it at any later instant, finds nothing to do. */
  lemma NoDoubleFlush(cfg: Config, s: State, now: int, later: int)
    ensures var first := Flush(cfg, s, now);
      && Flush(cfg, first.next, later) == Step(first.next, [])
      && Tick(cfg, first.next, later) == Step(first.next, [])
  {
  }

  /** A message in the shape the listing produces, naming a blob of the
      configured bucket, is probed under exactly that blob's name. */
  lemma ListedVideoIsProbed(cfg: Config, name: string)
    requires cfg.hasBucket
    requires !Contains(name, GcsPrefix(cfg.bucketName))
    ensures var uri := GcsUri(cfg.bucketName, name);
      Inspect(cfg, JObject(map["gcs_uri" := JString(uri)])) == CheckBlob(uri, name)
  {
    var uri := GcsUri(cfg.bucketName, name);
    var prefix := GcsPrefix(cfg.bucketName);
    assert StartsWith(uri, "gs://") by {
      assert uri[..5] == prefix[..5];
    }
    ExtractInvertsUri(cfg.bucketName, name);
  }
}

=== FILE: json.dfy ===
/** The value `json.loads` produces, as far as the aggregator inspects it:
    Python truthiness, `dict.get`, and the `in` operator, which raises a
    TypeError on numbers, booleans and `None`. */
module Json {
  import opened Options
  import opened Strings

  /** A decoded JSON document. An object is a Python dict, so a key maps to
      one value (the last one written in the text). Numbers keep only their
      value, which is all that truthiness looks at. */
  datatype Json =
    | JNull
    | JBool(b: bool)
    | JNumber(n: real)
    | JString(s: string)
    | JArray(items: seq<Json>)
    | JObject(fields: map<string, Json>)

  /** Python's `bool(v)`: `None`, `False`, zero and empty containers are false. */
  predicate Truthy(v: Json) {
    match v
    case JNull => false
    case JBool(b) => b
    case JNumber(n) => n != 0.0
    case JString(s) => |s| > 0
    case JArray(items) => |items| > 0
    case JObject(fields) => |fields| > 0
  }

  /** `d.get(key)`: the stored value, or `None` when the key is absent. */
  function Get(fields: map<string, Json>, key: string): (r: Json)
    ensures key !in fields ==> r == JNull
    ensures key in fields ==> r == fields[key]
  {
    if key in fields then fields[key] else JNull
  }

  /** Python's `a or b`: the first operand when it is truthy, else the second. */
  function Or(a: Json, b: Json): (r: Json)
    ensures Truthy(r) <==> Truthy(a) || Truthy(b)
    ensures Truthy(a) ==> r == a
    ensures !Truthy(a) ==> r == b
  {
    if Truthy(a) then a else b
  }

  /** `key in v` for a string `key`: dict membership, list element equality,
      substring test; `None` stands for the TypeError raised on the scalars. */
  function In(key: string, v: Json): (r: Option<bool>)
    ensures r.None? <==> v.JNull? || v.JBool? || v.JNumber?
  {
    match v
    case JObject(fields) => Some(key in fields)
    case JArray(items) => Some(JString(key) in items)
    case JString(s) => Some(Contains(s, key))
    case _ => None
  }
}

=== FILE: options.dfy ===
/** The optional-value datatype used throughout the model: a parse that may
    fail, a listing call that may raise, a key that may be missing. */
module Options {

  datatype Option<+T> = None | Some(value: T)
}

=== FILE: scenarios.dfy ===
/** Small runs: the count trigger, the strict timeout, and bodies that
    are requeued instead of admitted. */
module Scenarios {
  import opened Options
  import opened Json
  import opened Aggregator
  import opened Trace

  /** A message body that names no video. */
  function Body(id: real): Json {
    JObject(map["id" := JNumber(id)])
  }

  const CountConfig: Config := Config(3, DefaultBatchTimeout, DefaultBucket, true, false, true, true)
  const TimeoutConfig: Config := Config(DefaultBatchSize, DefaultBatchTimeout, DefaultBucket, true, false, false, false)

  /** A full batch of three is cached, announced and acked in order. */
  lemma FullBatchFlush(a: Json, b: Json, c: Json)
    ensures Flush(CountConfig, State([Item(a, 1), Item(b, 2), Item(c, 3)], 0, Metrics(0, [], 3)), 100)
      == Step(State([], 100, Metrics(1, [3], 0)),
              [SinkWrite(Cache, Batch(100, [a, b, c], 100, DefaultBucket)),
               Publish(100, DefaultBucket), Ack(1), Ack(2), Ack(3)])
  {
    var full := [Item(a, 1), Item(b, 2), Item(c, 3)];
    var batch := Batch(100, [a, b, c], 100, DefaultBucket);
    FullBatchLog(a, b, c);
    FlushUnfolds(CountConfig, State(full, 0, Metrics(0, [], 3)), 100);
    assert [] + [|full|] == [3];
  }

  /** A non-empty flush, spelled out: the configured sink writes and then
      the broker notice and acks, with the state reset. */
  lemma FlushUnfolds(cfg: Config, s: State, now: int)
    requires |s.pending| > 0 && cfg.metricsOn
    ensures Flush(cfg, s, now)
      == Step(State([], now, Metrics(s.metrics.batchesCreated + 1, s.metrics.batchSizes + [|s.pending|], 0)),
              SinkWrites(cfg, MakeBatch(cfg, s.pending, now)) + Notify(cfg, MakeBatch(cfg, s.pending, now), s.pending))
  { }

  /** The log of the full batch: one cache write, the notice, three acks. */
  lemma FullBatchLog(a: Json, b: Json, c: Json)
    ensures var full := [Item(a, 1), Item(b, 2), Item(c, 3)];
      SinkWrites(CountConfig, MakeBatch(CountConfig, full, 100)) + Notify(CountConfig, MakeBatch(CountConfig, full, 100), full)
        == [SinkWrite(Cache, Batch(100, [a, b, c], 100, DefaultBucket)),
            Publish(100, DefaultBucket), Ack(1), Ack(2), Ack(3)]
  {
    var full := [Item(a, 1), Item(b, 2), Item(c, 3)];
    var batch := Batch(100, [a, b, c], 100, DefaultBucket);
    assert MakeBatch(CountConfig, full, 100) == batch by {
      assert Messages(full) == [a, b, c];
    }
    assert SinkWrites(CountConfig, batch) == [SinkWrite(Cache, batch)];
    assert Acks(full) == [Ack(1), Ack(2), Ack(3)];
  }

  /** The third delivery of the count-trigger scenario fills and flushes the batch. */
  lemma CountTriggerFlushes(a: Json, b: Json, c: Json)
    requires Inspect(CountConfig, c) == NoCheck
    ensures OnMessage(CountConfig, State([Item(a, 1), Item(b, 2)], 0, Metrics(0, [], 2)), 3, Some(c), Present, 100)
      == Step(State([], 100, Metrics(1, [3], 0)),
              [SinkWrite(Cache, Batch(100, [a, b, c], 100, DefaultBucket)),
               Publish(100, DefaultBucket), Ack(1), Ack(2), Ack(3)])
  {
    var cfg := CountConfig;
    var s2 := State([Item(a, 1), Item(b, 2)], 0, Metrics(0, [], 2));
    assert Screen(cfg, Some(c), Present) == Accept(c, []);
    CountAdmitFlushes(a, b, c);
    var r := Admit(cfg, s2, Item(c, 3), 100);
    assert OnMessage(cfg, s2, 3, Some(c), Present, 100) == Step(r.next, [] + r.effects);
    assert [] + r.effects == r.effects;
  }

  /** Admitting the third body fills the batch and flushes it. */
  lemma CountAdmitFlushes(a: Json, b: Json, c: Json)
    ensures Admit(CountConfig, State([Item(a, 1), Item(b, 2)], 0, Metrics(0, [], 2)), Item(c, 3), 100)
      == Step(State([], 100, Metrics(1, [3], 0)),
              [SinkWrite(Cache, Batch(100, [a, b, c], 100, DefaultBucket)),
               Publish(100, DefaultBucket), Ack(1), Ack(2), Ack(3)])
  {
    var cfg := CountConfig;
    var s2 := State([Item(a, 1), Item(b, 2)], 0, Metrics(0, [], 2));
    var full := State([Item(a, 1), Item(b, 2), Item(c, 3)], 0, Metrics(0, [], 3));
    assert s2.pending + [Item(c, 3)] == full.pending;
    assert Gauged(cfg, s2.metrics, 3) == full.metrics;
    FullBatchFlush(a, b, c);
  }

  /** The first delivery of the count-trigger scenario stays pending. */
  lemma CountFirstWaits(a: Json)
    requires Inspect(CountConfig, a) == NoCheck
    ensures OnMessage(CountConfig, Init(0), 1, Some(a), Present, 0)
      == Step(State([Item(a, 1)], 0, Metrics(0, [], 1)), [])
  {
    assert Screen(CountConfig, Some(a), Present) == Accept(a, []);
    assert [] + [Item(a, 1)] == [Item(a, 1)];
  }

  /** The second delivery of the count-trigger scenario stays pending. */
  lemma CountSecondWaits(a: Json, b: Json)
    requires Inspect(CountConfig, b) == NoCheck
    ensures OnMessage(CountConfig, State([Item(a, 1)], 0, Metrics(0, [], 1)), 2, Some(b), Present, 0)
      == Step(State([Item(a, 1), Item(b, 2)], 0, Metrics(0, [], 2)), [])
  {
    assert Screen(CountConfig, Some(b), Present) == Accept(b, []);
    assert [Item(a, 1)] + [Item(b, 2)] == [Item(a, 1), Item(b, 2)];
  }

  /** Batch size 3: two deliveries at t = 0 that need no existence check
      stay pending, the third at t = 100 ms fills the batch, which is
      cached, announced and acked in arrival order, and the state is reset
      at 100 ms. */
  lemma CountTriggerScenario(a: Json, b: Json, c: Json)
    requires Inspect(CountConfig, a) == NoCheck
    requires Inspect(CountConfig, b) == NoCheck
    requires Inspect(CountConfig, c) == NoCheck
    ensures Run(CountConfig, Init(0), [Delivery(1, Some(a), Present, 0), Delivery(2, Some(b), Present, 0), Delivery(3, Some(c), Present, 100)])
      == Step(State([], 100, Metrics(1, [3], 0)),
              [SinkWrite(Cache, Batch(100, [a, b, c], 100, DefaultBucket)),
               Publish(100, DefaultBucket), Ack(1), Ack(2), Ack(3)])
  {
    var e1, e2, e3 := Delivery(1, Some(a), Present, 0), Delivery(2, Some(b), Present, 0), Delivery(3, Some(c), Present, 100);
    assert [e1] + ([e2] + [e3]) == [e1, e2, e3];
    CountFirstWaits(a);
    RunAfterQuiet(CountConfig, Init(0), e1, [e2] + [e3], State([Item(a, 1)], 0, Metrics(0, [], 1)));
    CountSecondWaits(a, b);
    RunAfterQuiet(CountConfig, State([Item(a, 1)], 0, Metrics(0, [], 1)), e2, [e3], State([Item(a, 1), Item(b, 2)], 0, Metrics(0, [], 2)));
    CountLastRun(a, b, c);
  }

  /** The last delivery of the count-trigger scenario, as a run. */
  lemma CountLastRun(a: Json, b: Json, c: Json)
    requires Inspect(CountConfig, c) == NoCheck
    ensures Run(CountConfig, State([Item(a, 1), Item(b, 2)], 0, Metrics(0, [], 2)), [Delivery(3, Some(c), Present, 100)])
      == Step(State([], 100, Metrics(1, [3], 0)),
              [SinkWrite(Cache, Batch(100, [a, b, c], 100, DefaultBucket)),
               Publish(100, DefaultBucket), Ack(1), Ack(2), Ack(3)])
  {
    var s2 := State([Item(a, 1), Item(b, 2)], 0, Metrics(0, [], 2));
    var e3 := Delivery(3, Some(c), Present, 100);
    CountTriggerFlushes(a, b, c);
    RunCons(CountConfig, s2, e3, []);
    assert [e3] + [] == [e3];
    var log := OnMessage(CountConfig, s2, 3, Some(c), Present, 100).effects;
    assert log + [] == log;
  }

  /** The state after the delivery of the timeout scenario. */
  function Waiting(m: Json, tag: Tag): State {
    State([Item(m, tag)], 0, Metrics(0, [], 0))
  }

  /** The delivery of the timeout scenario is appended and nothing is sent. */
  lemma TimeoutAdmits(m: Json, tag: Tag)
    requires Inspect(TimeoutConfig, m) == NoCheck
    ensures OnMessage(TimeoutConfig, Init(0), tag, Some(m), Present, 0) == Step(Waiting(m, tag), [])
  {
    assert Screen(TimeoutConfig, Some(m), Present) == Accept(m, []);
    assert [] + [Item(m, tag)] == [Item(m, tag)];
  }

  /** The timeout loop finds the batch not yet timed out at 1 s and at
      exactly 2 s. */
  lemma TimeoutWaits(m: Json, tag: Tag)
    ensures Tick(TimeoutConfig, Waiting(m, tag), 1000) == Step(Waiting(m, tag), [])
    ensures Tick(TimeoutConfig, Waiting(m, tag), 2000) == Step(Waiting(m, tag), [])
  {
  }

  /** The timeout loop flushes the batch at 3 s. */
  lemma TimeoutFlushes(m: Json, tag: Tag)
    ensures Tick(TimeoutConfig, Waiting(m, tag), 3000)
      == Step(State([], 3000, Metrics(0, [], 0)), [Publish(3000, DefaultBucket), Ack(tag)])
  {
    var s1 := Waiting(m, tag);
    assert Acks(s1.pending) == [Ack(tag)];
    assert Tick(TimeoutConfig, s1, 3000).effects == [] + ([Publish(3000, DefaultBucket)] + [Ack(tag)]);
  }

  /** Batch size 50, timeout 2 s: one delivery at t = 0 that needs no
      existence check is not flushed by the loop at 1 s nor at exactly 2 s,
      since the elapsed time must exceed the timeout, and is flushed and
      acked at 3 s. */
  lemma TimeoutScenario(m: Json, tag: Tag)
    requires Inspect(TimeoutConfig, m) == NoCheck
    ensures Run(TimeoutConfig, Init(0), [Delivery(tag, Some(m), Present, 0), Timer(1000), Timer(2000)])
      == Step(State([Item(m, tag)], 0, Metrics(0, [], 0)), [])
    ensures Run(TimeoutConfig, Init(0), [Delivery(tag, Some(m), Present, 0), Timer(1000), Timer(2000), Timer(3000)])
      == Step(State([], 3000, Metrics(0, [], 0)), [Publish(3000, DefaultBucket), Ack(tag)])
  {
    TimeoutRunWaits(m, tag);
    TimeoutRunFlushes(m, tag);
  }

  /** The first three events of the timeout scenario leave the delivery pending. */
  lemma TimeoutRunWaits(m: Json, tag: Tag)
    requires Inspect(TimeoutConfig, m) == NoCheck
    ensures Run(TimeoutConfig, Init(0), [Delivery(tag, Some(m), Present, 0), Timer(1000), Timer(2000)])
      == Step(Waiting(m, tag), [])
  {
    var e0 := Delivery(tag, Some(m), Present, 0);
    var timers := [Timer(1000), Timer(2000)];
    assert [e0] + timers == [e0, Timer(1000), Timer(2000)];
    TimeoutAdmits(m, tag);
    RunAfterQuiet(TimeoutConfig, Init(0), e0, timers, Waiting(m, tag));
    TimerRunWaits(m, tag);
  }

  /** The whole timeout scenario flushes once, at 3 s. */
  lemma TimeoutRunFlushes(m: Json, tag: Tag)
    requires Inspect(TimeoutConfig, m) == NoCheck
    ensures Run(TimeoutConfig, Init(0), [Delivery(tag, Some(m), Present, 0), Timer(1000), Timer(2000), Timer(3000)])
      == Step(State([], 3000, Metrics(0, [], 0)), [Publish(3000, DefaultBucket), Ack(tag)])
  {
    var e0 := Delivery(tag, Some(m), Present, 0);
    var timers := [Timer(1000), Timer(2000), Timer(3000)];
    assert [e0] + timers == [e0, Timer(1000), Timer(2000), Timer(3000)];
    TimeoutAdmits(m, tag);
    RunAfterQuiet(TimeoutConfig, Init(0), e0, timers, Waiting(m, tag));
    TimerRunFlushes(m, tag);
  }

  /** From the admitted state, the loop iterations at 1 s and 2 s send nothing. */
  lemma TimerRunWaits(m: Json, tag: Tag)
    ensures Run(TimeoutConfig, Waiting(m, tag), [Timer(1000), Timer(2000)]) == Step(Waiting(m, tag), [])
  {
    var cfg := TimeoutConfig;
    var s1 := Waiting(m, tag);
    TimeoutWaits(m, tag);
    RunCons(cfg, s1, Timer(2000), []);
    RunCons(cfg, s1, Timer(1000), [Timer(2000)]);
    assert Run(cfg, s1, [Timer(1000), Timer(2000)]) == Step(s1, [] + []);
  }

  /** From the admitted state, the loop iterations at 1, 2 and 3 s flush once, at 3 s. */
  lemma TimerRunFlushes(m: Json, tag: Tag)
    ensures Run(TimeoutConfig, Waiting(m, tag), [Timer(1000), Timer(2000), Timer(3000)])
      == Step(State([], 3000, Metrics(0, [], 0)), [Publish(3000, DefaultBucket), Ack(tag)])
  {
    TimerRunFlushesLater(m, tag);
    TimerQuiet(TimeoutConfig, Waiting(m, tag), 1000, [Timer(2000), Timer(3000)]);
    assert [Timer(1000)] + [Timer(2000), Timer(3000)] == [Timer(1000), Timer(2000), Timer(3000)];
  }

  /** From the admitted state, the loop iterations at 2 and 3 s flush once, at 3 s. */
  lemma TimerRunFlushesLater(m: Json, tag: Tag)
    ensures Run(TimeoutConfig, Waiting(m, tag), [Timer(2000), Timer(3000)])
      == Step(State([], 3000, Metrics(0, [], 0)), [Publish(3000, DefaultBucket), Ack(tag)])
  {
    var evs := [Timer(2000), Timer(3000)];
    TimerRunFlushesLast(m, tag);
    TimeoutWaits(m, tag);
    assert evs[1..] == [Timer(3000)];
    assert Run(TimeoutConfig, Waiting(m, tag), evs).effects == [] + Run(TimeoutConfig, Waiting(m, tag), [Timer(3000)]).effects;
  }

  /** From the admitted state, the loop iteration at 3 s flushes. */
  lemma TimerRunFlushesLast(m: Json, tag: Tag)
    ensures Run(TimeoutConfig, Waiting(m, tag), [Timer(3000)])
      == Step(State([], 3000, Metrics(0, [], 0)), [Publish(3000, DefaultBucket), Ack(tag)])
  {
    var log := [Publish(3000, DefaultBucket), Ack(tag)];
    TimeoutFlushes(m, tag);
    RunCons(TimeoutConfig, Waiting(m, tag), Timer(3000), []);
    assert [Timer(3000)] + [] == [Timer(3000)];
    assert log + [] == log;
  }

  /** A body that did not decode, and a well-formed JSON number (on which
      the `in` test raises), are both nacked for requeueing and leave the
      pending list alone. */
  lemma RequeueScenario(s: State)
    ensures
      var cfg := Config(DefaultBatchSize, DefaultBatchTimeout, DefaultBucket, true, true, true, true);
      Run(cfg, s, [Delivery(4, None, Present, 0), Delivery(5, Some(JNumber(5.0)), Present, 0)])
        == Step(s, [Nack(4), Nack(5)])
  {
    var evs := [Delivery(4, None, Present, 0), Delivery(5, Some(JNumber(5.0)), Present, 0)];
    assert evs[1..][1..] == [];
  }
}

=== FILE: scheduling.dfy ===
/** How `start` schedules the two event sources. `start` creates the
    timeout task (line 180) and then, with a channel, calls the blocking
    `start_consuming` (line 193) without ever awaiting. The event loop gets
    no turn while messages are consumed, so the timeout task never runs an
    iteration: only deliveries take effect. Without a channel nothing is
    ever delivered, so the loop finds nothing pending. `AsWritten` models
    that schedule; `Trace.Run` over interleaved timer events is the
    schedule the timeout loop was evidently meant to get. */
module Scheduling {
  import opened Options
  import opened Json
  import opened Aggregator
  import opened Trace
  import opened Scenarios

  /** The events that take effect as written: the deliveries of `evs`, in
      order, with every timeout-loop iteration starved. */
  function AsWritten(evs: seq<Event>): (r: seq<Event>)
    ensures forall k :: 0 <= k < |r| ==> r[k].Delivery?
    ensures forall e :: e in r <==> e in evs && e.Delivery?
    ensures DeliveryTags(r) == DeliveryTags(evs)
    decreases |evs|
  {
    if |evs| == 0 then []
    else
      var rest := AsWritten(evs[1..]);
      if evs[0].Delivery? then
        assert evs == [evs[0]] + evs[1..];
        [evs[0]] + rest
      else
        rest
  }

  /** As written, timer iterations alone do nothing at all, however long
      the pending batch has waited. */
  lemma {:induction false} TimersStarved(cfg: Config, s: State, evs: seq<Event>)
    requires forall k :: 0 <= k < |evs| ==> evs[k].Timer?
    ensures AsWritten(evs) == []
    ensures Run(cfg, s, AsWritten(evs)) == Step(s, [])
    decreases |evs|
  {
    if |evs| > 0 {
      TimersStarved(cfg, s, evs[1..]);
    }
  }

  /** With batch size 50 and timeout 2 s, a lone delivery at t = 0 is still
      pending and unacked after the loop would have run at 1, 2 and 3 s,
      while the interleaved run announces and acks it at 3 s. */
  lemma StarvedTimeoutWitness()
    ensures
      var evs := [Delivery(7, Some(Body(1.0)), Present, 0), Timer(1000), Timer(2000), Timer(3000)];
      && Run(TimeoutConfig, Init(0), AsWritten(evs)) == Step(State([Item(Body(1.0), 7)], 0, Metrics(0, [], 0)), [])
      && Run(TimeoutConfig, Init(0), evs).effects == [Publish(3000, DefaultBucket), Ack(7)]
  {
    var e0 := Delivery(7, Some(Body(1.0)), Present, 0);
    var timers := [Timer(1000), Timer(2000), Timer(3000)];
    var evs := [e0] + timers;
    assert evs[1..] == timers;
    TimersStarved(TimeoutConfig, Init(0), timers);
    assert AsWritten(timers) == [];
    assert AsWritten(evs) == [e0];
    assert Inspect(TimeoutConfig, Body(1.0)) == NoCheck;
    TimeoutAdmits(Body(1.0), 7);
    RunCons(TimeoutConfig, Init(0), e0, []);
    TimeoutScenario(Body(1.0), 7);
  }

  /** With the loop scheduled, one iteration strictly after the timeout
      empties the batch and acks every pending delivery in order. */
  lemma TimerFlushesTimedOut(cfg: Config, s: State, now: int)
    requires TimedOut(cfg, s, now)
    ensures Run(cfg, s, [Timer(now)]).next.pending == []
    ensures Run(cfg, s, [Timer(now)]).next.lastBatchTime == now
    ensures AckedTags(Run(cfg, s, [Timer(now)]).effects) == (if cfg.hasChannel then Tags(s.pending) else [])
  {
    RunCons(cfg, s, Timer(now), []);
    AckedTagsAppend(Tick(cfg, s, now).effects, []);
    assert Tick(cfg, s, now).effects + [] == Tick(cfg, s, now).effects;
  }
}

=== FILE: storage.dfy ===
/** The object-store side of the aggregator that is pure logic: the video
    filter and URI construction of `list_gcs_videos`, and the recovery of a
    blob name from a `gs://` URI done when a message is admitted. The store
    itself (listing, existence checks, uploads) is outside the model; its
    answers arrive as parameters. */
module Storage {
  import opened Options
  import opened Strings

  /** One listed blob: its name and its size, which the store may not report. */
  datatype Blob = Blob(name: string, size: Option<int>)

  /** One entry of the listing result. */
  datatype Video = Video(name: string, size: Option<int>, gcsUri: string)

  /** The extensions that make a blob a video, matched case-insensitively. */
  const VideoExtensions: seq<string> := [".mp4", ".avi", ".mov", ".mkv", ".webm", ".flv"]

  /** `name.lower().endswith(video_extensions)`. A video name is at least as
      long as the shortest extension. */
  predicate IsVideoName(name: string)
    ensures IsVideoName(name) ==> |name| >= 4
  {
    exists i :: 0 <= i < |VideoExtensions| && EndsWith(Lower(name), VideoExtensions[i])
  }

  /** `gs://{bucket}/`, the prefix of every object URI in `bucket`. */
  function GcsPrefix(bucket: string): (r: string)
    ensures StartsWith(r, "gs://")
    ensures |r| == |bucket| + 6 && r[|r| - 1] == '/'
  {
    "gs://" + bucket + "/"
  }

  /** `gs://{bucket}/{name}` */
  function GcsUri(bucket: string, name: string): (r: string)
    ensures StartsWith(r, GcsPrefix(bucket))
    ensures r[|GcsPrefix(bucket)|..] == name
  {
    GcsPrefix(bucket) + name
  }

  /** `path.replace(f'gs://{bucket}/', '')`: the blob name looked up when a
      message names a `gs://` path. Every occurrence of the prefix is deleted,
      not only a leading one. */
  function ExtractBlobName(bucket: string, path: string): (r: string)
    ensures !Contains(path, GcsPrefix(bucket)) ==> r == path
    ensures Contains(path, GcsPrefix(bucket)) ==> |r| <= |path| - |GcsPrefix(bucket)|
  {
    Remove(path, GcsPrefix(bucket))
  }

  /** A path that starts with `gs://{bucket}/` and does not contain it
      anywhere else loses exactly that prefix. */
  lemma ExtractStripsLeadingPrefix(bucket: string, path: string)
    requires StartsWith(path, GcsPrefix(bucket))
    requires !Contains(path[|GcsPrefix(bucket)|..], GcsPrefix(bucket))
    ensures ExtractBlobName(bucket, path) == path[|GcsPrefix(bucket)|..]
  {
    var prefix := GcsPrefix(bucket);
    RemoveLeading(prefix, path[|prefix|..]);
    assert prefix + path[|prefix|..] == path;
  }

  /** The listing entry built for a blob that passed the filter. */
  function Entry(bucket: string, b: Blob): (v: Video)
    ensures v.name == b.name && v.size == b.size
    ensures v.gcsUri == GcsUri(bucket, b.name)
  {
    Video(b.name, b.size, GcsUri(bucket, b.name))
  }

  /** The loop of `list_gcs_videos`: one entry per video blob, in listing order. */
  function Select(bucket: string, blobs: seq<Blob>): (r: seq<Video>)
    ensures |r| <= |blobs|
    ensures forall k :: 0 <= k < |r| ==> IsVideoName(r[k].name) && r[k].gcsUri == GcsUri(bucket, r[k].name)
  {
    if |blobs| == 0 then []
    else if IsVideoName(blobs[0].name) then [Entry(bucket, blobs[0])] + Select(bucket, blobs[1..])
    else Select(bucket, blobs[1..])
  }

  /** `list_gcs_videos`: empty when no bucket handle was obtained, and empty
      when the listing call raised (`listing == None`); otherwise the video
      entries of the listing. */
  function ListVideos(bucketReady: bool, bucket: string, listing: Option<seq<Blob>>): (r: seq<Video>)
    ensures !bucketReady || listing.None? ==> r == []
    ensures forall k :: 0 <= k < |r| ==> IsVideoName(r[k].name) && r[k].gcsUri == GcsUri(bucket, r[k].name)
    ensures bucketReady && listing.Some? ==> r == Select(bucket, listing.value)
    ensures listing.Some? ==> |r| <= |listing.value|
  {
    if !bucketReady then []
    else match listing
      case None => []
      case Some(blobs) => Select(bucket, blobs)
  }

  /** The filter keeps exactly the video blobs: a listing entry is present
      iff some listed blob has a video name and yields that entry. */
  lemma {:induction false} SelectMembers(bucket: string, blobs: seq<Blob>, v: Video)
    ensures v in Select(bucket, blobs) <==> exists b :: b in blobs && IsVideoName(b.name) && v == Entry(bucket, b)
    decreases |blobs|
  {
    if |blobs| > 0 {
      SelectMembers(bucket, blobs[1..], v);
      assert blobs == [blobs[0]] + blobs[1..];
      if v in Select(bucket, blobs) && v !in Select(bucket, blobs[1..]) {
        assert v == Entry(bucket, blobs[0]);
      }
      if exists b :: b in blobs && IsVideoName(b.name) && v == Entry(bucket, b) {
        var b :| b in blobs && IsVideoName(b.name) && v == Entry(bucket, b);
        if b != blobs[0] {
          assert b in blobs[1..];
        }
      }
    }
  }

  /** Listing order is kept: filtering two consecutive pages gives the
      filtered first page followed by the filtered second page. */
  lemma {:induction false} SelectAppend(bucket: string, xs: seq<Blob>, ys: seq<Blob>)
    ensures Select(bucket, xs + ys) == Select(bucket, xs) + Select(bucket, ys)
    decreases |xs|
  {
    if |xs| == 0 {
      assert xs + ys == ys;
    } else {
      assert (xs + ys)[1..] == xs[1..] + ys;
      SelectAppend(bucket, xs[1..], ys);
    }
  }

  /** A single blob is kept, with its URI, iff its name has a video extension
      in any letter case. */
  lemma SelectOne(bucket: string, b: Blob)
    ensures IsVideoName(b.name) ==> Select(bucket, [b]) == [Video(b.name, b.size, "gs://" + bucket + "/" + b.name)]
    ensures !IsVideoName(b.name) ==> Select(bucket, [b]) == []
  {
    assert [b][1..] == [];
  }

  /** The extension test ignores letter case: upper- or lower-casing a name
      does not change whether it counts as a video. */
  lemma VideoNameIgnoresCase(name: string)
    ensures IsVideoName(Lower(name)) <==> IsVideoName(name)
    ensures IsVideoName(Upper(name)) <==> IsVideoName(name)
  {
    LowerForgetsCase(name);
  }

  /** Extracting the blob name from the URI built for it gives the name back,
      provided the name does not itself contain `gs://{bucket}/`. */
  lemma ExtractInvertsUri(bucket: string, name: string)
    requires !Contains(name, GcsPrefix(bucket))
    ensures ExtractBlobName(bucket, GcsUri(bucket, name)) == name
  {
    RemoveLeading(GcsPrefix(bucket), name);
  }

  /** The proviso is needed: a name containing the prefix loses it too. */
  lemma ExtractDropsEmbeddedPrefix()
    ensures ExtractBlobName("b", GcsUri("b", "x/gs://b/y")) == "x/y"
  {
    var p := GcsPrefix("b");
    assert p == "gs://b/";
    var s := p + "x/gs://b/y";
    assert s[..|p|] == p;
    assert s[|p|..] == "x/gs://b/y";
    assert Remove("x/gs://b/y", p) == "x/y" by {
      var t := "x/gs://b/y";
      assert t[..7][0] == 'x' != p[0];
      assert t[1..][..7][0] == '/' != p[0];
      assert t[2..][..7] == p;
      assert t[2..][7..] == "y";
      assert Remove("y", p) == "y";
    }
  }

  /** For example, `gs://c/v.mp4` does not contain `gs://b/`, so in bucket `b`
      it is looked up unchanged. */
  lemma ExtractKeepsForeignBucket()
    ensures ExtractBlobName("b", "gs://c/v.mp4") == "gs://c/v.mp4"
  {
    var p := GcsPrefix("b");
    assert p == "gs://b/";
    var t := "gs://c/v.mp4";
    assert !Contains(t, p) by {
      forall i | 0 <= i <= |t| - |p|
        ensures !OccursAt(t, p, i)
      {
        assert t[i..i + |p|][5] == t[i + 5] != 'b';
      }
    }
  }

  /** Examples of the extension test: case is ignored, and the extension
      must end the name. */
  lemma VideoNameExamples()
    ensures IsVideoName("clip.MP4")
    ensures !IsVideoName("clip.mp4.txt")
  {
    var up := "clip.MP4";
    assert Lower(up)[4..] == ".mp4" by {
      assert forall i | 4 <= i < 8 :: Lower(up)[i] == LowerChar(up[i]);
    }
    assert EndsWith(Lower(up), VideoExtensions[0]);
    var txt := "clip.mp4.txt";
    assert Lower(txt)[11] == 't';
    forall i | 0 <= i < |VideoExtensions|
      ensures !EndsWith(Lower(txt), VideoExtensions[i])
    {
      var e := VideoExtensions[i];
      assert e[|e| - 1] != 't';
    }
  }
}

=== FILE: strings.dfy ===
/** The handful of Python `str` operations the aggregator relies on:
    `lower`, `startswith`, `endswith`, the `in` substring test and
    `replace(old, '')`. Characters are Unicode code points; only the ASCII
    letters have a case mapping here. */
module Strings {

  /** ASCII lowercasing of one character; every other character is kept. */
  function LowerChar(c: char): char {
    if 'A' <= c <= 'Z' then (c as int + 32) as char else c
  }

  /** ASCII uppercasing of one character; every other character is kept. */
  function UpperChar(c: char): char {
    if 'a' <= c <= 'z' then (c as int - 32) as char else c
  }

  /** `s.lower()`, restricted to the ASCII letters. */
  function Lower(s: string): (r: string)
    ensures |r| == |s|
  {
    seq(|s|, i requires 0 <= i < |s| => LowerChar(s[i]))
  }

  /** `s.upper()`, restricted to the ASCII letters. */
  function Upper(s: string): (r: string)
    ensures |r| == |s|
  {
    seq(|s|, i requires 0 <= i < |s| => UpperChar(s[i]))
  }

  /** `s.startswith(p)` */
  predicate StartsWith(s: string, p: string) {
    |p| <= |s| && s[..|p|] == p
  }

  /** `s.endswith(p)` */
  predicate EndsWith(s: string, p: string) {
    |p| <= |s| && s[|s| - |p|..] == p
  }

  /** `p` occurs in `s` starting at index `i`. */
  predicate OccursAt(s: string, p: string, i: int) {
    0 <= i && i + |p| <= |s| && s[i..i + |p|] == p
  }

  /** Python's `p in s` on two strings. */
  predicate Contains(s: string, p: string) {
    exists i :: 0 <= i <= |s| - |p| && OccursAt(s, p, i)
  }

  /** `s.replace(pat, '')`: deletes every occurrence of `pat`, scanning left to
      right and resuming after each deleted occurrence, as CPython does. A
      string without `pat` comes back unchanged; one with it loses at least
      one whole occurrence. */
  function Remove(s: string, pat: string): (r: string)
    requires |pat| > 0
    ensures |r| <= |s|
    ensures !Contains(s, pat) ==> r == s
    ensures Contains(s, pat) ==> |r| <= |s| - |pat|
    decreases |s|
  {
    if |s| < |pat| then s
    else if s[..|pat|] == pat then
      assert OccursAt(s, pat, 0);
      Remove(s[|pat|..], pat)
    else
      ContainsPastHead(s, pat);
      assert [s[0]] + s[1..] == s;
      [s[0]] + Remove(s[1..], pat)
  }

  /** When `pat` does not start `s`, it occurs in `s` iff it occurs in `s[1..]`. */
  lemma ContainsPastHead(s: string, pat: string)
    requires |pat| <= |s| && s[..|pat|] != pat
    ensures Contains(s, pat) <==> Contains(s[1..], pat)
  {
    if Contains(s, pat) {
      var i :| 0 <= i <= |s| - |pat| && OccursAt(s, pat, i);
      assert i != 0;
      assert s[1..][i - 1..i - 1 + |pat|] == s[i..i + |pat|];
      assert OccursAt(s[1..], pat, i - 1);
    }
    if Contains(s[1..], pat) {
      var i :| 0 <= i <= |s[1..]| - |pat| && OccursAt(s[1..], pat, i);
      OccursInSuffix(s, pat, 1, i);
    }
  }

  /** Lowercasing is idempotent, and uppercasing first changes nothing:
      a test on `Lower(s)` cannot tell `s`, `Lower(s)` and `Upper(s)` apart. */
  lemma LowerForgetsCase(s: string)
    ensures Lower(Lower(s)) == Lower(s)
    ensures Lower(Upper(s)) == Lower(s)
  {
    assert forall i :: 0 <= i < |s| ==> Lower(Lower(s))[i] == Lower(s)[i];
    assert forall i :: 0 <= i < |s| ==> Lower(Upper(s))[i] == Lower(s)[i];
  }

  /** An occurrence in a suffix is an occurrence in the whole string. */
  lemma OccursInSuffix(s: string, p: string, k: nat, i: int)
    requires k <= |s|
    requires OccursAt(s[k..], p, i)
    ensures OccursAt(s, p, i + k)
  {
    assert s[k..][i..i + |p|] == s[i + k..i + k + |p|];
  }

  /** Deleting `pat` from `pat + rest` gives back `rest` exactly when `pat`
      does not occur inside `rest`. */
  lemma RemoveLeading(pat: string, rest: string)
    requires |pat| > 0
    ensures Remove(pat + rest, pat) == rest <==> !Contains(rest, pat)
  {
    var s := pat + rest;
    assert s[..|pat|] == pat;
    assert s[|pat|..] == rest;
  }
}

=== FILE: trace.dfy ===
/** Runs of the engine: deliveries and timeout-loop iterations applied one
    after the other, each as one atomic step. This is the schedule the
    timeout loop is meant to run under; `Scheduling` shows that `start`
    starves the loop, which only removes timer events from a run.
    The lemmas here state what holds for every run: each accepted delivery
    is acked exactly once and in arrival order or is still pending, the
    rejected ones are nacked and never acked, and the pending list stays
    below the batch size. */
module Trace {
  import opened Options
  import opened Json
  import opened Aggregator

  /** A broker delivery (its tag, the decoded body or `None` when decoding
      failed, the store's answer to an existence probe, and the clock), or
      one iteration of the timeout loop. */
  datatype Event =
    | Delivery(tag: Tag, body: Option<Json>, probe: Probe, now: int)
    | Timer(now: int)

  function Apply(cfg: Config, s: State, e: Event): Step {
    match e
    case Delivery(tag, body, probe, now) => OnMessage(cfg, s, tag, body, probe, now)
    case Timer(now) => Tick(cfg, s, now)
  }

  /** The state after `evs` and the effects of all of them, in order. */
  function Run(cfg: Config, s: State, evs: seq<Event>): Step
    decreases |evs|
  {
    if |evs| == 0 then Step(s, [])
    else
      var first := Apply(cfg, s, evs[0]);
      var rest := Run(cfg, first.next, evs[1..]);
      Step(rest.next, first.effects + rest.effects)
  }

  /** Running `[e] + rest` is applying `e`, then running `rest`. */
  lemma RunCons(cfg: Config, s: State, e: Event, rest: seq<Event>)
    ensures var first := Apply(cfg, s, e);
      var after := Run(cfg, first.next, rest);
      Run(cfg, s, [e] + rest) == Step(after.next, first.effects + after.effects)
  {
    assert ([e] + rest)[1..] == rest;
  }

  /** A step that sends nothing is transparent to the rest of a run. */
  lemma RunAfterQuiet(cfg: Config, s: State, e: Event, rest: seq<Event>, mid: State)
    requires Apply(cfg, s, e) == Step(mid, [])
    ensures Run(cfg, s, [e] + rest) == Run(cfg, mid, rest)
  {
    RunCons(cfg, s, e, rest);
    assert [] + Run(cfg, mid, rest).effects == Run(cfg, mid, rest).effects;
  }

  /** A timer iteration before the timeout is transparent to the rest of a run. */
  lemma TimerQuiet(cfg: Config, s: State, now: int, rest: seq<Event>)
    requires !TimedOut(cfg, s, now)
    ensures Run(cfg, s, [Timer(now)] + rest) == Run(cfg, s, rest)
  {
    RunAfterQuiet(cfg, s, Timer(now), rest, s);
  }

  /** Whether `e` is a delivery that admission accepts. */
  predicate Accepted(cfg: Config, e: Event) {
    e.Delivery? && Screen(cfg, e.body, e.probe).Accept?
  }

  /** The tags of the deliveries in `evs`, in order. */
  function DeliveryTags(evs: seq<Event>): seq<Tag> {
    if |evs| == 0 then []
    else (if evs[0].Delivery? then [evs[0].tag] else []) + DeliveryTags(evs[1..])
  }

  /** The tags of the accepted deliveries in `evs`, in order. */
  function AcceptedTags(cfg: Config, evs: seq<Event>): seq<Tag> {
    if |evs| == 0 then []
    else (if Accepted(cfg, evs[0]) then [evs[0].tag] else []) + AcceptedTags(cfg, evs[1..])
  }

  /** The tags of the rejected deliveries in `evs`, in order. */
  function RejectedTags(cfg: Config, evs: seq<Event>): seq<Tag> {
    if |evs| == 0 then []
    else (if evs[0].Delivery? && !Accepted(cfg, evs[0]) then [evs[0].tag] else []) + RejectedTags(cfg, evs[1..])
  }

  predicate Distinct(ts: seq<Tag>) {
    forall i, j :: 0 <= i < j < |ts| ==> ts[i] != ts[j]
  }

  lemma TagsAppend(a: seq<Item>, b: seq<Item>)
    ensures Tags(a + b) == Tags(a) + Tags(b)
    decreases |a|
  {
    var l, r := Tags(a + b), Tags(a) + Tags(b);
    assert |l| == |r|;
    forall i | 0 <= i < |l|
      ensures l[i] == r[i]
    {
      if i < |a| {
        assert l[i] == (a + b)[i].tag == a[i].tag == Tags(a)[i];
      } else {
        assert l[i] == (a + b)[i].tag == b[i - |a|].tag == Tags(b)[i - |a|];
      }
    }
  }

  /** One step keeps the ack balance: what it acks, followed by what is
      still pending, is what was pending followed by the delivery it
      accepts. */
  lemma ApplyAckBalance(cfg: Config, s: State, e: Event)
    requires cfg.hasChannel
    ensures var a := Apply(cfg, s, e);
      AckedTags(a.effects) + Tags(a.next.pending) == Tags(s.pending) + (if Accepted(cfg, e) then [e.tag] else [])
  {
    if e.Delivery? {
      DeliveryAckBalance(cfg, s, e.tag, e.body, e.probe, e.now);
    } else {
      TimerAckBalance(cfg, s, e.now);
    }
  }

  /** A timer iteration either changes nothing or acks every pending tag
      and empties the batch. */
  lemma TimerAckBalance(cfg: Config, s: State, now: int)
    requires cfg.hasChannel
    ensures var a := Tick(cfg, s, now);
      AckedTags(a.effects) + Tags(a.next.pending) == Tags(s.pending)
  {
    if !TimedOut(cfg, s, now) {
      assert AckedTags([]) + Tags(s.pending) == Tags(s.pending);
    }
  }

  /** The ack balance of one delivery. */
  lemma DeliveryAckBalance(cfg: Config, s: State, tag: Tag, body: Option<Json>, probe: Probe, now: int)
    requires cfg.hasChannel
    ensures var a := OnMessage(cfg, s, tag, body, probe, now);
      AckedTags(a.effects) + Tags(a.next.pending)
        == Tags(s.pending) + (if Screen(cfg, body, probe).Accept? then [tag] else [])
  {
    if Screen(cfg, body, probe).Reject? {
      assert AckedTags([Nack(tag)]) == [];
    } else if |s.pending| + 1 < cfg.batchSize {
      WaitingAckBalance(cfg, s, tag, body, probe, now);
    }
  }

  /** An accepted delivery below the threshold moves its tag to the end of
      the pending tags and acks nothing. */
  lemma WaitingAckBalance(cfg: Config, s: State, tag: Tag, body: Option<Json>, probe: Probe, now: int)
    requires Screen(cfg, body, probe).Accept? && |s.pending| + 1 < cfg.batchSize
    ensures var a := OnMessage(cfg, s, tag, body, probe, now);
      AckedTags(a.effects) + Tags(a.next.pending) == Tags(s.pending) + [tag]
  {
    TagsAppend(s.pending, [Item(body.value, tag)]);
  }

  /** Every accepted delivery is acked exactly once, in arrival order, or is
      still pending at the end; nothing else is ever acked. */
  lemma {:induction false} RunAckBalance(cfg: Config, s: State, evs: seq<Event>)
    requires cfg.hasChannel
    ensures var r := Run(cfg, s, evs);
      AckedTags(r.effects) + Tags(r.next.pending) == Tags(s.pending) + AcceptedTags(cfg, evs)
    decreases |evs|
  {
    if |evs| > 0 {
      var first := Apply(cfg, s, evs[0]);
      var rest := Run(cfg, first.next, evs[1..]);
      var mine: seq<Tag> := if Accepted(cfg, evs[0]) then [evs[0].tag] else [];
      assert Run(cfg, s, evs) == Step(rest.next, first.effects + rest.effects);
      assert AcceptedTags(cfg, evs) == mine + AcceptedTags(cfg, evs[1..]);
      ApplyAckBalance(cfg, s, evs[0]);
      RunAckBalance(cfg, first.next, evs[1..]);
      AckedTagsAppend(first.effects, rest.effects);
      Rebalance(AckedTags(first.effects), Tags(first.next.pending), AckedTags(rest.effects),
        Tags(rest.next.pending), Tags(s.pending), mine, AcceptedTags(cfg, evs[1..]));
    }
  }

  /** Chaining two balances of acked-plus-pending against
      pending-plus-accepted. */
  lemma Rebalance(a1: seq<Tag>, p1: seq<Tag>, a2: seq<Tag>, p2: seq<Tag>, p0: seq<Tag>, m1: seq<Tag>, m2: seq<Tag>)
    requires a1 + p1 == p0 + m1
    requires a2 + p2 == p1 + m2
    ensures (a1 + a2) + p2 == p0 + (m1 + m2)
  {
    calc {
      (a1 + a2) + p2;
      a1 + (a2 + p2);
      a1 + (p1 + m2);
      (a1 + p1) + m2;
      (p0 + m1) + m2;
    }
  }

  /** Without a channel nothing is ever acked. */
  lemma {:induction false} RunNoChannelNoAcks(cfg: Config, s: State, evs: seq<Event>)
    requires !cfg.hasChannel
    ensures AckedTags(Run(cfg, s, evs).effects) == []
    decreases |evs|
  {
    if |evs| > 0 {
      var first := Apply(cfg, s, evs[0]);
      var rest := Run(cfg, first.next, evs[1..]);
      if evs[0].Delivery? && Screen(cfg, evs[0].body, evs[0].probe).Reject? {
        assert AckedTags([Nack(evs[0].tag)]) == [];
      }
      RunNoChannelNoAcks(cfg, first.next, evs[1..]);
      AckedTagsAppend(first.effects, rest.effects);
    }
  }

  /** Exactly the rejected deliveries are nacked, once each, in order. */
  lemma {:induction false} RunNacksRejected(cfg: Config, s: State, evs: seq<Event>)
    ensures NackedTags(Run(cfg, s, evs).effects) == RejectedTags(cfg, evs)
    decreases |evs|
  {
    if |evs| > 0 {
      var first := Apply(cfg, s, evs[0]);
      var rest := Run(cfg, first.next, evs[1..]);
      if evs[0].Delivery? && !Accepted(cfg, evs[0]) {
        assert NackedTags([Nack(evs[0].tag)]) == [evs[0].tag];
      }
      RunNacksRejected(cfg, first.next, evs[1..]);
      NackedTagsAppend(first.effects, rest.effects);
    }
  }

  /** The count trigger keeps the pending list strictly below the batch
      size after every step of every run that starts below it. */
  lemma {:induction false} RunBelowBatchSize(cfg: Config, s: State, evs: seq<Event>)
    requires cfg.batchSize >= 1
    requires |s.pending| < cfg.batchSize
    ensures |Run(cfg, s, evs).next.pending| < cfg.batchSize
    decreases |evs|
  {
    if |evs| > 0 {
      var first := Apply(cfg, s, evs[0]);
      RunBelowBatchSize(cfg, first.next, evs[1..]);
    }
  }

  lemma {:induction false} AcceptedAreDeliveries(cfg: Config, evs: seq<Event>)
    ensures forall t :: t in AcceptedTags(cfg, evs) ==> t in DeliveryTags(evs)
    decreases |evs|
  {
    if |evs| > 0 {
      AcceptedAreDeliveries(cfg, evs[1..]);
    }
  }

  lemma {:induction false} RejectedAreDeliveries(cfg: Config, evs: seq<Event>)
    ensures forall t :: t in RejectedTags(cfg, evs) ==> t in DeliveryTags(evs)
    decreases |evs|
  {
    if |evs| > 0 {
      RejectedAreDeliveries(cfg, evs[1..]);
    }
  }

  /** Dropping the head of a list of distinct tags keeps them distinct and
      removes the head's tag. */
  lemma DistinctTail(ts: seq<Tag>)
    requires |ts| > 0 && Distinct(ts)
    ensures Distinct(ts[1..]) && ts[0] !in ts[1..]
  {
    forall i, j | 0 <= i < j < |ts[1..]|
      ensures ts[1..][i] != ts[1..][j]
    {
      assert ts[i + 1] != ts[j + 1];
    }
    forall k | 0 <= k < |ts[1..]|
      ensures ts[1..][k] != ts[0]
    {
      assert ts[0] != ts[k + 1];
    }
  }

  /** With distinct delivery tags no tag is both accepted and rejected. */
  lemma {:induction false} AcceptedRejectedDisjoint(cfg: Config, evs: seq<Event>)
    requires Distinct(DeliveryTags(evs))
    ensures forall t :: t in RejectedTags(cfg, evs) ==> t !in AcceptedTags(cfg, evs)
    decreases |evs|
  {
    if |evs| > 0 {
      var rest := evs[1..];
      var ts := DeliveryTags(evs);
      if evs[0].Delivery? {
        assert ts == [evs[0].tag] + DeliveryTags(rest);
        DistinctTail(ts);
        assert ts[1..] == DeliveryTags(rest);
        AcceptedAreDeliveries(cfg, rest);
        RejectedAreDeliveries(cfg, rest);
      } else {
        assert ts == DeliveryTags(rest);
      }
      AcceptedRejectedDisjoint(cfg, rest);
    }
  }

  /** The right part of a duplicate-free concatenation is duplicate-free. */
  lemma DistinctRight(a: seq<Tag>, b: seq<Tag>)
    requires Distinct(a + b)
    ensures Distinct(b)
  {
    forall i, j | 0 <= i < j < |b|
      ensures b[i] != b[j]
    {
      assert (a + b)[|a| + i] != (a + b)[|a| + j];
    }
  }

  /** A tag of the right part of a duplicate-free concatenation is not in
      the left part. */
  lemma DistinctApart(a: seq<Tag>, b: seq<Tag>, t: Tag)
    requires Distinct(a + b) && t in b
    ensures t !in a
  {
    var k :| 0 <= k < |b| && b[k] == t;
    forall i | 0 <= i < |a|
      ensures a[i] != t
    {
      assert (a + b)[i] != (a + b)[|a| + k];
    }
  }

  /** A delivery that is nacked is never acked in the same run, provided
      the broker's delivery tags are distinct (as they are on one channel). */
  lemma NackedNeverAcked(cfg: Config, s: State, evs: seq<Event>)
    requires Distinct(Tags(s.pending) + DeliveryTags(evs))
    ensures var log := Run(cfg, s, evs).effects;
      forall t :: t in NackedTags(log) ==> t !in AckedTags(log)
  {
    var r := Run(cfg, s, evs);
    RunNacksRejected(cfg, s, evs);
    RejectedAreDeliveries(cfg, evs);
    DistinctRight(Tags(s.pending), DeliveryTags(evs));
    if cfg.hasChannel {
      RunAckBalance(cfg, s, evs);
      AcceptedRejectedDisjoint(cfg, evs);
      forall t | t in NackedTags(r.effects)
        ensures t !in AckedTags(r.effects)
      {
        assert t in DeliveryTags(evs) && t !in AcceptedTags(cfg, evs);
        DistinctApart(Tags(s.pending), DeliveryTags(evs), t);
        assert t !in Tags(s.pending) + AcceptedTags(cfg, evs);
        assert t !in AckedTags(r.effects) + Tags(r.next.pending);
      }
    } else {
      RunNoChannelNoAcks(cfg, s, evs);
    }
  }
}
